=== FILE: README.md ===
# legionella-lms: a Dafny model of the request logic in `app.py`

legionella-lms is a small Flask training site. Hospital staff log in and take a
multiple-choice quiz. Each result is stored with a per-question `details`
summary. An administrator can export all results as CSV and can reset the demo
accounts' passwords. The decisions in those route handlers are modelled here
as pure functions over immutable data, with proofs of what they promise.

Modules:

- `Wrappers`: `Option` and `Result`.
- `Text`: the parts of Python's string and integer handling the handlers rely
  on.
  - `str.isspace`, `str.strip`;
  - `int(text)`: surrounding whitespace (the narrower set `int()` skips), an
    optional sign, ASCII digits;
  - `str(i)`;
  - `sep.join(parts)`, `s.split(c)`.
- `Quiz`: the `/quiz` POST handler.
  - The grading loop is a left fold over the questions in bank order. The
    first question whose answer is missing, is not an integer, or is not a
    valid Python index makes the submission fail.
  - The review list.
  - The `Q1:D | Q2:Y | ...` details string, with a decoder that reads it back.
- `Accounts`: the `users` table as a sequence of rows in table order.
  - `load_user` and `login`;
  - `require_admin`;
  - the `change_password` validation cascade;
  - `admin_reset_demo_passwords`;
  - `seed_users_if_empty`.

  Werkzeug's hashing is a `Hasher` value: a pair of functions. The only
  assumption about it is `Sound`: a freshly generated hash checks against the
  password it came from. The random salt of each `generate_password_hash`
  call is a parameter.
- `Reports`: the administrator's CSV export. The rows come in the order the
  query delivers them (newest first).
- `Cases`: the case lookup behind `/cases/<id>`.

The grading follows the code. Every correct answer is worth a hard-coded 20
points, whatever the number of questions. A five-question bank therefore
spans 0..100, but a bank of any other size does not.

The `/change-password` route is registered after the `if __name__ ==
"__main__": app.run(...)` block. When the file is started as a script,
`app.run` blocks before that route exists. The model describes the handler's
logic as if it were reachable.

## Model

| member | source | states |
|---|---|---|
| Text.ParseSigned | app.py:160 | `int()` on stripped text succeeds exactly for an optionally signed, non-empty run of decimal digits |
| Text.DigitsValueLeadingZero | app.py:160 | a leading zero does not change the value of a run of digits |
| Text.ParseSignedLeadingZero | app.py:160 | `int()` reads a digit run with a leading zero as the run without it (`int("01") == 1`) |
| Text.ParseSignedPlus | app.py:160 | a `+` sign before a digit run is accepted and changes nothing (`int("+1") == 1`) |
| Text.ParseSignedMinus | app.py:160 | a `-` sign before a digit run yields the negated value (`int("-0") == 0`) |
| Text.ParseIntOfIntToString | app.py:160-161 | reading back a printed integer gives the integer (`int(str(i)) == i`) |
| Text.ParseIntIgnoresSurroundingSpace | app.py:160 | whitespace `int()` skips (ASCII tab, line feed, vertical tab, form feed, carriage return, space, and the non-ASCII `isspace` characters) around a submitted number does not change the integer it reads |
| Text.IntRefusesInformationSeparator | app.py:160 | `int()` does not skip U+001C..U+001F although `str.strip()` does: `"\x1c5"` strips to `"5"` but is not an integer |
| Text.SplitJoin | app.py:232-234 | joining comma-free (newline-free) parts and splitting on that character gives the parts back |
| Quiz.PyIndex | app.py:166-167 | `choices[i]` succeeds exactly for `-len <= i < len`, and then yields the element at `i` modulo `len` |
| Quiz.PyIndexTwoWays | app.py:166-167 | each choice is reached both by `i` and by `i - len`; when choices are distinct, by no other index |
| Quiz.GradeQuestion | app.py:159-169 | one loop iteration succeeds exactly when the answer field is present, reads as an integer, and both it and the answer key are valid indices; the review entry is the stem, the choice at the submitted index, the choice at the key, and the explanation |
| Quiz.Fold | app.py:156-169 | the loop gets through exactly when every iteration does, and the review then has one entry per question, each the one that iteration built |
| Quiz.FoldFailsAtFirstError | app.py:158-169 | a failed loop reports the error of the first iteration that raised, and every earlier iteration succeeded |
| Quiz.ScorePathAgreesWithDetailsPath | app.py:160-163 | the score path's `chosen == correct` test and the details path's comparison with the raw `answer_index` agree on every question |
| Quiz.CountMarkedIsCardinality | app.py:162-163 | the number of correct verdicts is the size of the set of correctly answered positions |
| Quiz.FoldScoreCountsVerdicts | app.py:162-163 | the running score is 20 points per iteration that counted |
| Quiz.GradeSucceedsIffWellAnswered | app.py:158-169 | grading completes exactly when every question is well answered |
| Quiz.VerdictsAreDetailsMarks | app.py:162-172 | the verdicts the score counts are the verdicts the details string records |
| Quiz.GradeScoreCountsMarks | app.py:162-172 | the score is 20 times the number of `D` verdicts |
| Quiz.ScoreIsTwentyPerCorrectAnswer | app.py:156-163 | the score is 20 times the number of correctly answered questions, so it lies in 0..20·n |
| Quiz.DecodeFromTokens | app.py:171-172 | the joined tokens numbered from any position read back as the verdicts they encode |
| Quiz.DecodeEncodeDetails | app.py:171-172 | the details string reads back as exactly the verdicts it encodes, one per question, in order |
| Quiz.DetailsAreCsvSafe | app.py:171-172 | a details string never contains a comma or a line break |
| Quiz.Submit | app.py:154-172 | the POST produces a result exactly when every question is well answered; the score is 20 per correct answer and lies in 0..20·n |
| Quiz.SubmitFailsAtFirstMalformedQuestion | app.py:158-169 | a rejected submission carries the error of the first malformed question in bank order |
| Quiz.SubmitReviewFollowsBank | app.py:158-169 | the review has one entry per question in bank order; `your` is `choices[chosen]` and `correct` is `choices[answer_index]`, right answer or not |
| Quiz.DetailsAgreeWithScore | app.py:162-172 | the details hold one verdict per question, `D` exactly where the score counted, and 20 × the number of `D` verdicts equals the score |
| Quiz.FiveQuestionExtremes | app.py:156-163 | on five questions, all correct scores 100 and all wrong scores 0 |
| Quiz.NegativeChoiceWrapsButScoresZero | app.py:160-172 | a submitted `-1` wraps to the last choice: the review shows it as the user's answer even when it equals the correct choice, yet the question scores 0 and is recorded as `Y` |
| Quiz.SeparatorPaddedAnswerIsRejected | app.py:160 | an answer `"\x1c1"` makes `int()` raise, so the submission fails at that question |
| Accounts.NameIndex | app.py:115-116 | the lookup by username finds the first row with that name, and nothing exactly when no row has it |
| Accounts.IdIndex | app.py:89-90 | the lookup by id finds the first row with that id, and nothing exactly when no row has it |
| Accounts.UserByIdFinds | app.py:89-90 | in a table with unique ids, the lookup by id returns the row carrying it |
| Accounts.UserByNameFinds | app.py:115-116 | in a table with unique usernames, the lookup by name returns the row carrying it |
| Accounts.LoadUser | app.py:85-92 | `load_user` yields the identity of a row with that id, and nothing exactly when no row has it |
| Accounts.LoginSucceedsIffPasswordChecks | app.py:110-121 | login succeeds only for a row whose username is the stripped typed name and whose hash checks against the password; with unique usernames, exactly then |
| Accounts.LoginWithStoredPassword | app.py:111-119 | whoever types a row's name and the password its hash was made from logs in as that row |
| Accounts.AdminGateFollowsStoredFlag | app.py:193-197 | the admin gate passes exactly when the stored `is_admin` integer is non-zero (`User` takes its truth value) |
| Accounts.ChangePassword | app.py:263-292 | checks run in order and the first failure wins: an empty or missing field, then new ≠ confirmation, then the old password not checking. Only when all pass is the caller's hash set to a hash of the new password, with every other row unchanged |
| Accounts.ChangedPasswordLogsIn | app.py:278-289 | after a successful change the table keeps its keys and the caller logs in with the new password |
| Accounts.Pad2 | app.py:55 | `{i:02d}` writes digits that read back as `i`, exactly two of them for every `i` below 100 |
| Accounts.DemoNamesDistinct | app.py:49-58 | the eleven demo usernames are pairwise different |
| Accounts.DemoNamesSpelledOut | app.py:49-58 | the demo usernames are `admin`, then `asistan01`..`asistan10` |
| Accounts.DemoIndex | app.py:246-251 | a name is a demo account exactly when it is one of the eleven demo names, and then its position is the one given |
| Accounts.ResetRow | app.py:246-251 | the reset changes only a row's hash, and only for a demo account |
| Accounts.ResetStep | app.py:248-251 | each update of the reset loop resets the next demo account and nothing else |
| Accounts.ResetDemoPasswords | app.py:238-255 | a non-admin is refused; otherwise the table after the updates is the row-wise reset |
| Accounts.ResetRestoresDefaults | app.py:246-251 | after the reset every demo account's hash checks against its default password, the key constraints hold, and no other row or column changes |
| Accounts.ResetTableKeepsKeys | app.py:246-251 | the reset leaves every id and username as it was |
| Accounts.DemoNameIsStripped | app.py:54-55 | demo names carry no surrounding whitespace, so `strip()` leaves them unchanged |
| Accounts.DemoAccountsLogInAfterReset | app.py:238-255 | after the reset each demo account logs in with its default password as the same identity |
| Accounts.SeedIfEmpty | app.py:41-61 | a non-empty table is left alone; an empty one gets eleven rows |
| Accounts.SeededAccounts | app.py:41-61 | the seeded table has unique keys, holds the demo names in order, makes only `admin` an administrator, and every hash checks against its default password |
| Accounts.SeededLogin | app.py:41-61 | every seeded account logs in with its default password as the identity with id k + 1; only `admin` is an administrator |
| Accounts.SeededLogins | app.py:49-58 | on a fresh table, `asistan01`/`Asistan!2345` logs in as non-admin id 2, and `admin`/`Admin!2345` as admin id 1 |
| Reports.ExportCsv | app.py:217-236 | a non-admin is refused; otherwise the text is the header plus one line per row in the given order, each ended by a newline |
| Reports.IntToStringIsCsvSafe | app.py:234 | a printed score contains no comma or line break |
| Reports.CsvLineIsJoin | app.py:234 | a CSV line is the four cells joined by commas |
| Reports.CsvLineReadsBack | app.py:234 | a line of comma-free cells splits back into its four cells, and the score cell reads back as the score |
| Reports.CsvLineIsOneLine | app.py:234 | a line of newline-free cells contains no line break, whether or not the cells hold commas |
| Reports.DocumentLines | app.py:232-234 | when no cell holds a line break (commas are allowed), the export splits into the header, exactly one line per row in order, and an empty rest |
| Reports.QuizRowReadsBack | app.py:232-234 | a stored quiz result exports as four cells; its score and details read back unchanged |
| Reports.CommaInUsernameShiftsColumns | app.py:234 | cells are not escaped, so a comma in a username produces five columns |
| Cases.FindCase | app.py:141-149 | the lookup returns the first case in file order with the requested id, and not-found exactly when none has it |
| Cases.FindUniqueCase | app.py:145 | with unique ids, the lookup returns the one case carrying the id |

## Left out

- Flask routing, templates, `flash` notices, redirects, sessions and the
  flask-login plumbing are left out. Only each handler's decision is
  modelled: a failure value stands for a notice plus a redirect.
- SQLite is left out. Tables are in-memory sequences in row order, and a
  `WHERE ... fetchone()` takes the first matching row. `ORDER BY` results
  are taken as given input order. The `/me` and `/admin` listing queries
  are not modelled because they have no logic beyond SQL.
- Werkzeug hashing is left out. Only `Sound` is assumed, so the model does
  not claim that an old password stops working after a change or a reset.
- `datetime.now()`, reading the JSON files (`load_cases`, `load_quiz`),
  `init_db` and `app.run` are left out as I/O, clock and process bootstrap.
  Timestamps are opaque strings passed in.
- Text.ParseIntOfIntToString: does not model the limit of 4300 decimal
  digits that Python 3.11 and later put on `int(str)` and `str(int)`; the
  round trip is claimed for every integer.
- Text.ParseSigned: does not model Python's underscore separators
  (`int("1_0")`) or non-ASCII digits, because neither arises from a quiz
  form's choice indices.
- Quiz.Question: `answer_index` is an integer. If the JSON held a string
  there, the score path's `int(...)` would still accept it but the details
  path's raw comparison would always give `Y`; that case is not modelled.
  `int(q["answer_index"])` on an integer is the identity. The question `id`
  is an integer too, so field names built from other JSON ids (`q1.0` from
  `1.0`, `qabc` from `"abc"`) cannot be represented. The form is a map from
  field name to one value; a repeated field, of which Werkzeug's `.get`
  returns the first, is not modelled. Every question is assumed to carry
  all its keys; a question missing `id`, `answer_index`, `stem`, `choices`
  or `explain` makes app.py:159-168 raise `KeyError`, which is not
  modelled.
- Accounts.ChangePassword: a missing row for the current user makes the
  handler raise a `TypeError`. Here it is the distinct failure
  `NoSuchAccount`.
- Accounts.SeedUsers: the seeded ids 1..11 assume a fresh table whose
  AUTOINCREMENT counter starts at 1.
- Cases.Case: a case's id is taken as the integer it compares equal to; a
  JSON `1.0` or `true` id matches `/cases/1` as it does in Python. Ids that
  are not numbers never match and so behave like a missing case. A case
  without an `id` key makes app.py:145 raise `KeyError`; that is not modelled.

=== FILE: accounts.dfy ===
/** The `users` table and the operations on it: seeding (app.py:41-61),
    `load_user` (app.py:85-92), `login` (app.py:106-122), `require_admin`
    (app.py:193-197), `admin_reset_demo_passwords` (app.py:238-255) and
    `change_password` (app.py:260-294). */
module Accounts {
  import opened Wrappers
  import opened Text

  /** The random salt one call of `generate_password_hash` draws. */
  type Salt = nat

  /** Werkzeug's `generate_password_hash` and `check_password_hash`, whose
      code is not part of this model. */
  datatype Hasher = Hasher(hash: (string, Salt) -> string, matches: (string, string) -> bool)

  /** The one property of the hashing pair the model relies on: a freshly
      generated hash of a password checks against that password. */
  ghost predicate Sound(h: Hasher) {
    forall p: string, s: Salt :: h.matches(h.hash(p, s), p)
  }

  /** A row of `users`; `isAdmin` is the stored INTEGER column. */
  datatype UserRow = UserRow(id: nat, username: string, pwHash: string, isAdmin: int, createdAt: string)

  /** The `User` object flask-login carries for the current request. */
  datatype Identity = Identity(id: nat, username: string, isAdmin: bool)

  /** The table's key constraints: `id` is the primary key and `username` is UNIQUE. */
  ghost predicate WellFormed(users: seq<UserRow>) {
    forall i, j :: 0 <= i < j < |users| ==>
      users[i].id != users[j].id && users[i].username != users[j].username
  }

  /** Position of the first row named `name` at or after `from` (what
      `fetchone()` returns after `WHERE username=?`, for `from` = 0). */
  function NameIndex(users: seq<UserRow>, name: string, from: nat := 0): (r: Option<nat>)
    requires from <= |users|
    ensures r.Some? ==>
      && from <= r.value < |users|
      && users[r.value].username == name
      && (forall j :: from <= j < r.value ==> users[j].username != name)
    ensures r.None? <==> forall j :: from <= j < |users| ==> users[j].username != name
    decreases |users| - from
  {
    if from == |users| then None
    else if users[from].username == name then Some(from)
    else NameIndex(users, name, from + 1)
  }

  /** Position of the first row with id `id` at or after `from` (`WHERE id=?`). */
  function IdIndex(users: seq<UserRow>, id: nat, from: nat := 0): (r: Option<nat>)
    requires from <= |users|
    ensures r.Some? ==>
      && from <= r.value < |users|
      && users[r.value].id == id
      && (forall j :: from <= j < r.value ==> users[j].id != id)
    ensures r.None? <==> forall j :: from <= j < |users| ==> users[j].id != id
    decreases |users| - from
  {
    if from == |users| then None
    else if users[from].id == id then Some(from)
    else IdIndex(users, id, from + 1)
  }

  /** `SELECT * FROM users WHERE username=?` followed by `fetchone()`. */
  function UserByName(users: seq<UserRow>, name: string): Option<UserRow> {
    match NameIndex(users, name)
    case None => None
    case Some(k) => Some(users[k])
  }

  /** `SELECT * FROM users WHERE id=?` followed by `fetchone()`. */
  function UserById(users: seq<UserRow>, id: nat): Option<UserRow> {
    match IdIndex(users, id)
    case None => None
    case Some(k) => Some(users[k])
  }

  /** In a well-formed table the row with a given id is found by id lookup. */
  lemma UserByIdFinds(users: seq<UserRow>, k: nat)
    requires WellFormed(users) && k < |users|
    ensures UserById(users, users[k].id) == Some(users[k])
  {
    var r := IdIndex(users, users[k].id);
    assert r.Some?;
  }

  /** In a well-formed table the row with a given username is found by name lookup. */
  lemma UserByNameFinds(users: seq<UserRow>, k: nat)
    requires WellFormed(users) && k < |users|
    ensures UserByName(users, users[k].username) == Some(users[k])
  {
    var r := NameIndex(users, users[k].username);
    assert r.Some?;
  }

  /** `User(row)`: the admin flag is the truth value of the stored integer. */
  function UserOf(row: UserRow): Identity {
    Identity(row.id, row.username, row.isAdmin != 0)
  }

  /** `load_user`: the identity for a session's user id, if the row exists. */
  function LoadUser(users: seq<UserRow>, id: nat): (r: Option<Identity>)
    ensures r.Some? ==> exists k :: 0 <= k < |users| && users[k].id == id && r.value == UserOf(users[k])
    ensures r.None? <==> forall k :: 0 <= k < |users| ==> users[k].id != id
  {
    match UserById(users, id)
    case None => None
    case Some(row) => Some(UserOf(row))
  }

  // ---------------------------------------------------------------------------
  // Login

  datatype AuthError = BadCredentials

  /** The POST branch of `login`: the username field is stripped, a missing
      field reads as empty, and the stored hash must check against the
      password. */
  function Login(users: seq<UserRow>, username: Option<string>, password: Option<string>, h: Hasher)
    : (r: Result<Identity, AuthError>)
  {
    var name := Strip(username.GetOr(""));
    var pw := password.GetOr("");
    match UserByName(users, name)
    case None => Failure(BadCredentials)
    case Some(row) => if h.matches(row.pwHash, pw) then Success(UserOf(row)) else Failure(BadCredentials)
  }

  /** Login succeeds only for a row carrying the typed (stripped) username
      whose hash checks against the typed password, and yields that row's
      identity; in a well-formed table such a row always lets the user in. */
  lemma LoginSucceedsIffPasswordChecks(users: seq<UserRow>, username: Option<string>, password: Option<string>, h: Hasher)
    ensures var r := Login(users, username, password, h);
      r.Success? ==> exists k ::
        && 0 <= k < |users|
        && users[k].username == Strip(username.GetOr(""))
        && h.matches(users[k].pwHash, password.GetOr(""))
        && r.value == UserOf(users[k])
    ensures WellFormed(users) ==>
      (Login(users, username, password, h).Success? <==> exists k ::
        && 0 <= k < |users|
        && users[k].username == Strip(username.GetOr(""))
        && h.matches(users[k].pwHash, password.GetOr("")))
  {
    var name := Strip(username.GetOr(""));
    var pw := password.GetOr("");
    var found := NameIndex(users, name);
    if found.Some? {
      var k := found.value;
      assert UserByName(users, name) == Some(users[k]);
      if WellFormed(users) {
        forall j | 0 <= j < |users| && users[j].username == name
          ensures j == k
        {
        }
      }
    } else {
      assert UserByName(users, name) == None;
    }
  }

  /** Whoever holds the password a row's hash was generated from can log in
      as that row. */
  lemma LoginWithStoredPassword(users: seq<UserRow>, k: nat, typed: string, password: string, salt: Salt, h: Hasher)
    requires Sound(h) && WellFormed(users) && k < |users|
    requires users[k].pwHash == h.hash(password, salt)
    requires Strip(typed) == users[k].username
    ensures Login(users, Some(typed), Some(password), h) == Success(UserOf(users[k]))
  {
    UserByNameFinds(users, k);
  }

  // ---------------------------------------------------------------------------
  // Admin gate

  /** `require_admin`: whether the current identity may use an admin page. */
  function RequireAdmin(who: Identity): bool {
    who.isAdmin
  }

  /** The gate passes for a loaded identity exactly when its stored
      `is_admin` integer is non-zero. */
  lemma AdminGateFollowsStoredFlag(users: seq<UserRow>, id: nat)
    requires WellFormed(users)
    requires LoadUser(users, id).Some?
    ensures RequireAdmin(LoadUser(users, id).value) <==>
      exists k :: 0 <= k < |users| && users[k].id == id && users[k].isAdmin != 0
  {
    var k :| 0 <= k < |users| && users[k].id == id && LoadUser(users, id).value == UserOf(users[k]);
    forall j | 0 <= j < |users| && users[j].id == id
      ensures j == k
    {
    }
  }

  // ---------------------------------------------------------------------------
  // Password change

  datatype PasswordError = FillAllFields | NewPasswordsDiffer | NoSuchAccount | WrongOldPassword

  /** A form field that Python finds truthy: present and non-empty. */
  predicate Filled(field: Option<string>) {
    field.Some? && field.value != ""
  }

  /** `UPDATE users SET pw_hash=? WHERE id=?`. */
  function SetHashWhereId(users: seq<UserRow>, id: nat, pwHash: string): (r: seq<UserRow>)
    ensures |r| == |users|
  {
    seq(|users|, i requires 0 <= i < |users| =>
      if users[i].id == id then users[i].(pwHash := pwHash) else users[i])
  }

  /** The POST branch of `change_password`; its checks run in order and the
      first that fails decides the notice. `salt` is the randomness of the one
      `generate_password_hash` call. */
  function ChangePassword(who: Identity, users: seq<UserRow>, oldField: Option<string>, newField: Option<string>,
                          confirmField: Option<string>, h: Hasher, salt: Salt): (r: Result<seq<UserRow>, PasswordError>)
    ensures r == Failure(FillAllFields) <==> !(Filled(oldField) && Filled(newField) && Filled(confirmField))
    ensures r == Failure(NewPasswordsDiffer) <==>
      Filled(oldField) && Filled(newField) && Filled(confirmField) && newField.value != confirmField.value
    ensures r == Failure(NoSuchAccount) <==>
      Filled(oldField) && Filled(newField) && Filled(confirmField) && newField.value == confirmField.value
      && forall k :: 0 <= k < |users| ==> users[k].id != who.id
    ensures r == Failure(WrongOldPassword) <==>
      Filled(oldField) && Filled(newField) && Filled(confirmField) && newField.value == confirmField.value
      && UserById(users, who.id).Some? && !h.matches(UserById(users, who.id).value.pwHash, oldField.value)
    ensures r.Success? ==>
      && newField.Some?
      && |r.value| == |users|
      && forall i :: 0 <= i < |users| ==>
        r.value[i] == if users[i].id == who.id then users[i].(pwHash := h.hash(newField.value, salt)) else users[i]
  {
    if !Filled(oldField) || !Filled(newField) || !Filled(confirmField) then Failure(FillAllFields)
    else if newField.value != confirmField.value then Failure(NewPasswordsDiffer)
    else match UserById(users, who.id)
      case None => Failure(NoSuchAccount)
      case Some(row) =>
        if !h.matches(row.pwHash, oldField.value) then Failure(WrongOldPassword)
        else Success(SetHashWhereId(users, who.id, h.hash(newField.value, salt)))
  }

  /** A successful change keeps the table's key constraints, and afterwards
      the caller logs in with the new password. */
  lemma ChangedPasswordLogsIn(who: Identity, users: seq<UserRow>, oldField: Option<string>, newField: Option<string>,
                              confirmField: Option<string>, h: Hasher, salt: Salt, k: nat)
    requires Sound(h) && WellFormed(users)
    requires ChangePassword(who, users, oldField, newField, confirmField, h, salt).Success?
    requires k < |users| && users[k].id == who.id
    requires Strip(users[k].username) == users[k].username
    ensures var after := ChangePassword(who, users, oldField, newField, confirmField, h, salt).value;
      && WellFormed(after)
      && Login(after, Some(users[k].username), Some(newField.value), h) == Success(UserOf(users[k]))
  {
    var after := ChangePassword(who, users, oldField, newField, confirmField, h, salt).value;
    assert forall i :: 0 <= i < |users| ==> after[i].id == users[i].id && after[i].username == users[i].username;
    assert after[k] == users[k].(pwHash := h.hash(newField.value, salt));
    LoginWithStoredPassword(after, k, users[k].username, newField.value, salt, h);
  }

  // ---------------------------------------------------------------------------
  // Demo accounts: seeding and reset

  const AdminName := "admin"
  const AdminPassword := "Admin!2345"
  const AssistantPassword := "Asistan!2345"

  /** `f"{i:02d}"`: at least two digits, zero-padded. */
  function Pad2(i: nat): (s: string)
    ensures AllDigits(s) && DigitsValue(s) == i
    ensures i < 100 ==> |s| == 2
  {
    DigitsValueOfNatToString(i);
    if i < 10 then "0" + NatToString(i) else NatToString(i)
  }

  /** `f"asistan{i:02d}"`. */
  function AssistantName(i: nat): string {
    "asistan" + Pad2(i)
  }

  /** The seeded accounts, in insertion order: `admin`, then `asistan01`..`asistan10`. */
  function DemoNames(): (names: seq<string>)
    ensures |names| == 11
  {
    [AdminName] + seq(10, i requires 0 <= i < 10 => AssistantName(i + 1))
  }

  /** The default password of the `k`-th demo account. */
  function DefaultPassword(k: nat): string {
    if k == 0 then AdminPassword else AssistantPassword
  }

  /** The position of `name` among the demo accounts. */
  function DemoIndex(name: string): (r: Option<nat>)
    ensures r.Some? ==> r.value < 11 && DemoNames()[r.value] == name
    ensures r.None? <==> name !in DemoNames()
  {
    Position(DemoNames(), name)
  }

  /** Position of the first occurrence of `x` in `s` at or after `from`. */
  function Position(s: seq<string>, x: string, from: nat := 0): (r: Option<nat>)
    requires from <= |s|
    ensures r.Some? ==> from <= r.value < |s| && s[r.value] == x && forall j :: from <= j < r.value ==> s[j] != x
    ensures r.None? <==> forall j :: from <= j < |s| ==> s[j] != x
    decreases |s| - from
  {
    if from == |s| then None
    else if s[from] == x then Some(from)
    else Position(s, x, from + 1)
  }

  /** The eleven demo usernames are pairwise different. */
  lemma DemoNamesDistinct()
    ensures forall i, j :: 0 <= i < j < 11 ==> DemoNames()[i] != DemoNames()[j]
  {
    var names := DemoNames();
    forall i, j | 0 <= i < j < 11
      ensures names[i] != names[j]
    {
      assert names[j] == AssistantName(j);
      if i == 0 {
        assert |names[i]| == 5 && |names[j]| > 7;
      } else {
        assert names[i] == AssistantName(i);
        assert Pad2(i) != Pad2(j) by {
          assert DigitsValue(Pad2(i)) != DigitsValue(Pad2(j));
        }
        assert names[i][7..] == Pad2(i) && names[j][7..] == Pad2(j);
      }
    }
  }

  lemma DemoIndexOf(k: nat)
    requires k < 11
    ensures DemoIndex(DemoNames()[k]) == Some(k)
  {
    DemoNamesDistinct();
  }

  /** `f"asistan{i:02d}"` for i = 1..10 gives `asistan01`..`asistan10`, and
      `admin` comes first. */
  lemma DemoNamesSpelledOut()
    ensures var names := DemoNames();
      && names[0] == "admin" && names[1] == "asistan01" && names[2] == "asistan02"
      && names[3] == "asistan03" && names[4] == "asistan04" && names[5] == "asistan05"
      && names[6] == "asistan06" && names[7] == "asistan07" && names[8] == "asistan08"
      && names[9] == "asistan09" && names[10] == "asistan10"
  {
    var names := DemoNames();
    assert names[1] == "asistan01" by {
      OneDigitAssistant(1);
    }
    assert names[2] == "asistan02" by {
      OneDigitAssistant(2);
    }
    assert names[3] == "asistan03" by {
      OneDigitAssistant(3);
    }
    assert names[4] == "asistan04" by {
      OneDigitAssistant(4);
    }
    assert names[5] == "asistan05" by {
      OneDigitAssistant(5);
    }
    assert names[6] == "asistan06" by {
      OneDigitAssistant(6);
    }
    assert names[7] == "asistan07" by {
      OneDigitAssistant(7);
    }
    assert names[8] == "asistan08" by {
      OneDigitAssistant(8);
    }
    assert names[9] == "asistan09" by {
      OneDigitAssistant(9);
    }
    assert names[10] == "asistan10" by {
      assert NatToString(10) == NatToString(1) + [DigitChar(0)];
    }
  }

  lemma OneDigitAssistant(k: nat)
    requires 1 <= k < 10
    ensures DemoNames()[k] == "asistan0" + [('0' as int + k) as char]
  {
    assert DemoNames()[k] == AssistantName(k);
  }

  datatype AdminError = Forbidden

  /** `UPDATE users SET pw_hash=? WHERE username=?`. */
  function SetHashWhereUsername(users: seq<UserRow>, name: string, pwHash: string): (r: seq<UserRow>)
    ensures |r| == |users|
  {
    seq(|users|, i requires 0 <= i < |users| =>
      if users[i].username == name then users[i].(pwHash := pwHash) else users[i])
  }

  /** What the reset does to one row: a demo account gets a fresh hash of its
      default password (drawn with the salt of its position in the handler's
      sequence of hash calls); every other row is left alone. */
  function ResetRow(row: UserRow, h: Hasher, salt: nat -> Salt): (r: UserRow)
    ensures r.(pwHash := row.pwHash) == row
    ensures row.username !in DemoNames() ==> r == row
  {
    match DemoIndex(row.username)
    case None => row
    case Some(k) => row.(pwHash := h.hash(DefaultPassword(k), salt(k)))
  }

  /** The table after the reset, row by row. */
  function ResetTable(users: seq<UserRow>, h: Hasher, salt: nat -> Salt): (r: seq<UserRow>)
    ensures |r| == |users|
  {
    seq(|users|, i requires 0 <= i < |users| => ResetRow(users[i], h, salt))
  }

  /** A row after the first `n` of the handler's updates. */
  function PartialReset(row: UserRow, h: Hasher, salt: nat -> Salt, n: nat): UserRow {
    match DemoIndex(row.username)
    case Some(k) => if k < n then row.(pwHash := h.hash(DefaultPassword(k), salt(k))) else row
    case None => row
  }

  /** One update of the reset loop takes the table from the first `i` demo
      accounts reset to the first `i + 1`. */
  lemma ResetStep(users: seq<UserRow>, cur: seq<UserRow>, h: Hasher, salt: nat -> Salt, i: nat)
    requires i < 11 && |cur| == |users|
    requires forall k :: 0 <= k < |users| ==> cur[k] == PartialReset(users[k], h, salt, i)
    ensures DemoNames()[i] == (if i == 0 then AdminName else AssistantName(i))
    ensures var next := SetHashWhereUsername(cur, DemoNames()[i], h.hash(DefaultPassword(i), salt(i)));
      forall k :: 0 <= k < |users| ==> next[k] == PartialReset(users[k], h, salt, i + 1)
  {
    DemoIndexOf(i);
    var name := DemoNames()[i];
    var next := SetHashWhereUsername(cur, name, h.hash(DefaultPassword(i), salt(i)));
    forall k | 0 <= k < |users|
      ensures next[k] == PartialReset(users[k], h, salt, i + 1)
    {
      assert cur[k].username == users[k].username;
      if users[k].username == name {
        assert DemoIndex(users[k].username) == Some(i);
      }
    }
  }

  /** `admin_reset_demo_passwords`: refused for a non-admin; otherwise one
      update for `admin`, then one per assistant in order. */
  method ResetDemoPasswords(who: Identity, users: seq<UserRow>, h: Hasher, salt: nat -> Salt)
    returns (r: Result<seq<UserRow>, AdminError>)
    ensures r.Failure? <==> !who.isAdmin
    ensures r.Success? ==> |r.value| == |users|
    ensures r.Success? ==> forall i :: 0 <= i < |users| ==> r.value[i] == ResetRow(users[i], h, salt)
  {
    if !RequireAdmin(who) {
      return Failure(Forbidden);
    }
    ResetStep(users, users, h, salt, 0);
    var cur := SetHashWhereUsername(users, AdminName, h.hash(AdminPassword, salt(0)));
    var i := 1;
    while i <= 10
      invariant 1 <= i <= 11
      invariant |cur| == |users|
      invariant forall k :: 0 <= k < |users| ==> cur[k] == PartialReset(users[k], h, salt, i)
    {
      ResetStep(users, cur, h, salt, i);
      cur := SetHashWhereUsername(cur, AssistantName(i), h.hash(AssistantPassword, salt(i)));
      i := i + 1;
    }
    forall k | 0 <= k < |users|
      ensures cur[k] == ResetRow(users[k], h, salt)
    {
    }
    r := Success(cur);
  }

  /** After the reset every demo account's hash checks against its default
      password, the table keeps its key constraints, and no other row and no
      other column changes. */
  lemma ResetRestoresDefaults(users: seq<UserRow>, h: Hasher, salt: nat -> Salt)
    requires Sound(h)
    ensures var after := ResetTable(users, h, salt);
      && (WellFormed(users) ==> WellFormed(after))
      && forall i :: 0 <= i < |users| ==>
        && after[i].(pwHash := users[i].pwHash) == users[i]
        && (users[i].username !in DemoNames() ==> after[i] == users[i])
        && (users[i].username in DemoNames() ==>
              h.matches(after[i].pwHash, DefaultPassword(DemoIndex(users[i].username).value)))
  {
  }

  /** A demo name contains no surrounding whitespace, so `login` finds it as typed. */
  lemma DemoNameIsStripped(k: nat)
    requires k < 11
    ensures Strip(DemoNames()[k]) == DemoNames()[k]
  {
    var name := DemoNames()[k];
    if k > 0 {
      assert name == "asistan" + Pad2(k);
      DigitIsNotSpace(name[|name| - 1]);
    }
    StripOfUnpadded(name, SpaceChars);
  }

  lemma ResetTableKeepsKeys(users: seq<UserRow>, h: Hasher, salt: nat -> Salt)
    ensures var after := ResetTable(users, h, salt);
      forall j :: 0 <= j < |users| ==> after[j].id == users[j].id && after[j].username == users[j].username
    ensures WellFormed(users) ==> WellFormed(ResetTable(users, h, salt))
  {
  }

  /** After the reset, each demo account logs in with its default password. */
  lemma DemoAccountsLogInAfterReset(users: seq<UserRow>, h: Hasher, salt: nat -> Salt, i: nat)
    requires Sound(h) && WellFormed(users)
    requires i < |users| && users[i].username in DemoNames()
    ensures Login(ResetTable(users, h, salt), Some(users[i].username),
                  Some(DefaultPassword(DemoIndex(users[i].username).value)), h)
            == Success(UserOf(users[i]))
  {
    var k := DemoIndex(users[i].username).value;
    var after := ResetTable(users, h, salt);
    assert WellFormed(after) && after[i].(pwHash := users[i].pwHash) == users[i] by {
      ResetTableKeepsKeys(users, h, salt);
    }
    assert after[i].pwHash == h.hash(DefaultPassword(k), salt(k)) by {
      assert after[i] == ResetRow(users[i], h, salt);
    }
    assert Strip(users[i].username) == users[i].username by {
      DemoNameIsStripped(k);
    }
    LoginWithStoredPassword(after, i, users[i].username, DefaultPassword(k), salt(k), h);
    assert UserOf(after[i]) == UserOf(users[i]);
  }

  /** The rows `seed_users_if_empty` inserts into a fresh table: `admin`
      (admin flag 1) then `asistan01`..`asistan10` (flag 0), ids from 1. */
  function SeedUsers(h: Hasher, salt: nat -> Salt, now: string): (users: seq<UserRow>)
    ensures |users| == 11
  {
    seq(11, i requires 0 <= i < 11 =>
      UserRow(i + 1, DemoNames()[i], h.hash(DefaultPassword(i), salt(i)), if i == 0 then 1 else 0, now))
  }

  /** `seed_users_if_empty`: only an empty table is seeded. */
  function SeedIfEmpty(users: seq<UserRow>, h: Hasher, salt: nat -> Salt, now: string): (r: seq<UserRow>)
    ensures |users| > 0 ==> r == users
    ensures |users| == 0 ==> |r| == 11
  {
    if |users| == 0 then SeedUsers(h, salt, now) else users
  }

  /** The seeded table keeps the key constraints, holds exactly the demo
      names, makes only `admin` an administrator, and gives every account a
      hash of its default password. */
  lemma SeededAccounts(h: Hasher, salt: nat -> Salt, now: string)
    requires Sound(h)
    ensures var users := SeedUsers(h, salt, now);
      && WellFormed(users)
      && (forall i :: 0 <= i < 11 ==> users[i].username == DemoNames()[i])
      && (forall i :: 0 <= i < 11 ==> (UserOf(users[i]).isAdmin <==> users[i].username == AdminName))
      && (forall i :: 0 <= i < 11 ==> h.matches(users[i].pwHash, DefaultPassword(i)))
  {
    DemoNamesDistinct();
    DemoIndexOf(0);
  }

  /** Every seeded account logs in with its default password, as the
      identity with id `k + 1`; only the first one is an administrator. */
  lemma SeededLogin(h: Hasher, salt: nat -> Salt, now: string, k: nat)
    requires Sound(h) && k < 11
    ensures Login(SeedUsers(h, salt, now), Some(DemoNames()[k]), Some(DefaultPassword(k)), h)
      == Success(Identity(k + 1, DemoNames()[k], k == 0))
  {
    var users := SeedUsers(h, salt, now);
    assert WellFormed(users) by {
      SeededAccounts(h, salt, now);
    }
    DemoNameIsStripped(k);
    LoginWithStoredPassword(users, k, DemoNames()[k], DefaultPassword(k), salt(k), h);
  }

  /** Logging in to a freshly seeded table as `asistan01` with `Asistan!2345`
      yields the non-admin identity with id 2; `admin` with `Admin!2345` yields
      the admin identity with id 1. */
  lemma SeededLogins(h: Hasher, salt: nat -> Salt, now: string)
    requires Sound(h)
    ensures Login(SeedUsers(h, salt, now), Some("asistan01"), Some("Asistan!2345"), h)
      == Success(Identity(2, "asistan01", false))
    ensures Login(SeedUsers(h, salt, now), Some("admin"), Some("Admin!2345"), h)
      == Success(Identity(1, "admin", true))
  {
    assert DemoNames()[0] == "admin" && DemoNames()[1] == "asistan01" by {
      DemoNamesSpelledOut();
    }
    SeededLogin(h, salt, now, 0);
    SeededLogin(h, salt, now, 1);
  }
}

=== FILE: cases.dfy ===
/** The case-study lookup behind `/cases/<int:case_id>`: the first case in
    file order whose `id` equals the requested one, or "not found". */
module Cases {
  import opened Wrappers

  /** One entry of the case file. Only `id` takes part in the lookup; the
      remaining keys are carried along for the page. */
  datatype Case = Case(id: int, fields: map<string, string>)

  /** `next((x for x in cases if x["id"] == case_id), None)`: scans the
      cases in order and stops at the first hit. */
  method FindCase(cases: seq<Case>, caseId: int) returns (r: Option<Case>)
    ensures r.None? <==> forall k :: 0 <= k < |cases| ==> cases[k].id != caseId
    ensures r.Some? ==>
      exists k ::
        && 0 <= k < |cases|
        && cases[k] == r.value
        && cases[k].id == caseId
        && (forall j :: 0 <= j < k ==> cases[j].id != caseId)
  {
    var i := 0;
    while i < |cases|
      invariant 0 <= i <= |cases|
      invariant forall j :: 0 <= j < i ==> cases[j].id != caseId
    {
      if cases[i].id == caseId {
        return Some(cases[i]);
      }
      i := i + 1;
    }
    return None;
  }

  /** When ids are unique the hit is the one case carrying that id. */
  method FindUniqueCase(cases: seq<Case>, k: nat) returns (r: Option<Case>)
    requires k < |cases|
    requires forall i, j :: 0 <= i < j < |cases| ==> cases[i].id != cases[j].id
    ensures r == Some(cases[k])
  {
    r := FindCase(cases, cases[k].id);
  }
}

=== FILE: quiz.dfy ===
/** The `/quiz` POST handler (app.py:151-180): grading a submitted form
    against the question bank, building the review shown to the user, and
    encoding the per-question `details` summary stored with the result. */
module Quiz {
  import opened Wrappers
  import opened Text

  /** Points awarded per correct answer; hard-coded, whatever the bank size. */
  const PointsPerCorrect := 20

  /** One entry of `quiz["questions"]`. */
  datatype Question = Question(id: int, stem: string, choices: seq<string>, answerIndex: int, explain: string)

  /** The submitted form: field name to field text. */
  type Form = map<string, string>

  /** One dict appended to `review`. */
  datatype ReviewEntry = ReviewEntry(stem: string, your: string, correct: string, explain: string)

  /** Why a submission raised instead of producing a result. */
  datatype QuizError =
    | MissingAnswer(questionId: int)
    | NotAnInteger(questionId: int)
    | ChoiceOutOfRange(questionId: int, chosen: int)
    | AnswerKeyOutOfRange(questionId: int)

  /** The outcome of one loop iteration: was the answer counted, and its review entry. */
  datatype Marked = Marked(correct: bool, entry: ReviewEntry)

  /** The loop state: running score and review list. */
  datatype Graded = Graded(score: int, review: seq<ReviewEntry>)

  /** What a successful POST renders and stores. */
  datatype Submission = Submission(score: int, review: seq<ReviewEntry>, details: string)

  /** The form field that carries the answer to `q`: `q{id}`. */
  function FieldName(q: Question): string {
    "q" + IntToString(q.id)
  }

  /** Python's `s[i]`: negative indices count from the end; anything else raises. */
  function PyIndex<T>(s: seq<T>, i: int): (r: Option<T>)
    ensures r.Some? <==> -|s| <= i < |s|
    ensures r.Some? ==> r.value == s[i % |s|]
  {
    if 0 <= i < |s| then Some(s[i])
    else if -|s| <= i < 0 then Some(s[|s| + i])
    else None
  }

  /** Every element is reachable by the two Python indices `i` and
      `i - len(s)`; when the elements are distinct, by no other. */
  lemma PyIndexTwoWays<T>(s: seq<T>, i: int, j: int)
    requires 0 <= i < |s|
    ensures PyIndex(s, i - |s|) == PyIndex(s, i) == Some(s[i])
    ensures PyIndex(s, j) == Some(s[i]) && (forall k :: 0 <= k < |s| && k != i ==> s[k] != s[i])
      ==> j == i || j == i - |s|
  {
    if PyIndex(s, j) == Some(s[i]) && (forall k :: 0 <= k < |s| && k != i ==> s[k] != s[i]) {
      assert s[j % |s|] == s[i];
    }
  }

  /** `int(request.form.get(key))` on the score path. */
  function Chosen(q: Question, form: Form): Result<int, QuizError> {
    var key := FieldName(q);
    if key !in form then Failure(MissingAnswer(q.id))
    else match ParseInt(form[key])
      case None => Failure(NotAnInteger(q.id))
      case Some(v) => Success(v)
  }

  /** A question the loop body gets through without raising: its field is
      present, reads as an integer, and both that integer and the answer key
      are valid Python indices into the choices. */
  ghost predicate WellAnswered(q: Question, form: Form) {
    var key := FieldName(q);
    && key in form
    && ParseInt(form[key]).Some?
    && -|q.choices| <= ParseInt(form[key]).value < |q.choices|
    && -|q.choices| <= q.answerIndex < |q.choices|
  }

  /** The test the details string applies: the submitted text, read as an
      integer, equals the answer key. */
  predicate AnsweredCorrectly(q: Question, form: Form) {
    var key := FieldName(q);
    key in form && ParseInt(form[key]) == Some(q.answerIndex)
  }

  /** The review entry the loop builds for a well-answered question. */
  ghost function ExpectedEntry(q: Question, form: Form): ReviewEntry
    requires WellAnswered(q, form)
  {
    var chosen := ParseInt(form[FieldName(q)]).value;
    ReviewEntry(q.stem, PyIndex(q.choices, chosen).value, PyIndex(q.choices, q.answerIndex).value, q.explain)
  }

  /** One iteration of the grading loop. */
  function GradeQuestion(q: Question, form: Form): (r: Result<Marked, QuizError>)
    ensures r.Success? <==> WellAnswered(q, form)
    ensures r.Success? ==> r.value.entry == ExpectedEntry(q, form)
  {
    match Chosen(q, form)
    case Failure(e) => Failure(e)
    case Success(chosen) =>
      match PyIndex(q.choices, chosen)
      case None => Failure(ChoiceOutOfRange(q.id, chosen))
      case Some(your) =>
        match PyIndex(q.choices, q.answerIndex)
        case None => Failure(AnswerKeyOutOfRange(q.id))
        case Some(right) => Success(Marked(chosen == q.answerIndex, ReviewEntry(q.stem, your, right, q.explain)))
  }

  /** The grading loop, over the outcomes of its iterations in bank order:
      the state after each prefix, ended by the first iteration that raises. */
  function Fold(outcomes: seq<Result<Marked, QuizError>>): (r: Result<Graded, QuizError>)
    ensures r.Success? <==> forall i :: 0 <= i < |outcomes| ==> outcomes[i].Success?
    ensures r.Success? ==> |r.value.review| == |outcomes|
    ensures r.Success? ==> forall i :: 0 <= i < |outcomes| ==> r.value.review[i] == outcomes[i].value.entry
    decreases |outcomes|
  {
    if |outcomes| == 0 then Success(Graded(0, []))
    else
      var before := Fold(outcomes[..|outcomes| - 1]);
      var m := outcomes[|outcomes| - 1];
      if before.Failure? then Failure(before.error)
      else if m.Failure? then Failure(m.error)
      else Success(Graded(before.value.score + (if m.value.correct then PointsPerCorrect else 0),
                          before.value.review + [m.value.entry]))
  }

  /** A failed fold reports the error of the first iteration that raised. */
  lemma {:induction false} FoldFailsAtFirstError(outcomes: seq<Result<Marked, QuizError>>)
    requires Fold(outcomes).Failure?
    ensures exists k ::
      && 0 <= k < |outcomes|
      && outcomes[k] == Failure(Fold(outcomes).error)
      && (forall j :: 0 <= j < k ==> outcomes[j].Success?)
  {
    var n := |outcomes| - 1;
    var prefix := outcomes[..n];
    if Fold(prefix).Failure? {
      FoldFailsAtFirstError(prefix);
      var k :| 0 <= k < |prefix| && prefix[k] == Failure(Fold(prefix).error)
        && forall j :: 0 <= j < k ==> prefix[j].Success?;
      assert outcomes[k] == prefix[k];
      assert forall j :: 0 <= j < k ==> outcomes[j] == prefix[j];
    } else {
      assert forall j :: 0 <= j < n ==> outcomes[j] == prefix[j];
    }
  }

  /** The outcome of each loop iteration, in bank order. */
  function Outcomes(bank: seq<Question>, form: Form): (os: seq<Result<Marked, QuizError>>)
    ensures |os| == |bank|
  {
    seq(|bank|, i requires 0 <= i < |bank| => GradeQuestion(bank[i], form))
  }

  /** The `for q in quiz["questions"]` loop of the handler. */
  function Grade(bank: seq<Question>, form: Form): Result<Graded, QuizError> {
    Fold(Outcomes(bank, form))
  }

  /** The score path and the details path agree on every question that
      grades: `chosen == correct` holds exactly when the parsed answer equals
      the raw answer key. */
  lemma ScorePathAgreesWithDetailsPath(q: Question, form: Form)
    requires WellAnswered(q, form)
    ensures GradeQuestion(q, form).Success?
    ensures GradeQuestion(q, form).value.correct <==> AnsweredCorrectly(q, form)
  {
  }

  /** The per-question verdicts the details string records, in bank order. */
  function DetailsMarks(bank: seq<Question>, form: Form): (marks: seq<bool>)
    ensures |marks| == |bank|
    ensures forall i :: 0 <= i < |bank| ==> (marks[i] <==> AnsweredCorrectly(bank[i], form))
  {
    seq(|bank|, i requires 0 <= i < |bank| => AnsweredCorrectly(bank[i], form))
  }

  /** Number of `true` verdicts. */
  function CountMarked(marks: seq<bool>): (n: nat)
    ensures n <= |marks|
    ensures (forall i :: 0 <= i < |marks| ==> marks[i]) ==> n == |marks|
    ensures (forall i :: 0 <= i < |marks| ==> !marks[i]) ==> n == 0
  {
    if |marks| == 0 then 0
    else CountMarked(marks[..|marks| - 1]) + (if marks[|marks| - 1] then 1 else 0)
  }

  /** The indices of the questions answered correctly. */
  ghost function CorrectIndices(bank: seq<Question>, form: Form): set<int> {
    set i | 0 <= i < |bank| && AnsweredCorrectly(bank[i], form)
  }

  /** `CountMarked` counts the set of marked positions. */
  lemma {:induction false} CountMarkedIsCardinality(marks: seq<bool>)
    ensures CountMarked(marks) == |set i | 0 <= i < |marks| && marks[i]|
  {
    if |marks| > 0 {
      var n := |marks| - 1;
      var prefix := marks[..n];
      CountMarkedIsCardinality(prefix);
      var before := set i | 0 <= i < n && prefix[i];
      var all := set i | 0 <= i < |marks| && marks[i];
      if marks[n] {
        assert all == before + {n};
      } else {
        assert all == before;
      }
    }
  }

  /** The verdicts of a run of iterations none of which raised. */
  function Verdicts(outcomes: seq<Result<Marked, QuizError>>): (vs: seq<bool>)
    requires forall i :: 0 <= i < |outcomes| ==> outcomes[i].Success?
    ensures |vs| == |outcomes|
  {
    seq(|outcomes|, i requires 0 <= i < |outcomes| && outcomes[i].Success? => outcomes[i].value.correct)
  }

  /** The fold's running score is 20 points per iteration that counted. */
  lemma {:induction false} FoldScoreCountsVerdicts(outcomes: seq<Result<Marked, QuizError>>)
    requires Fold(outcomes).Success?
    ensures Fold(outcomes).value.score == PointsPerCorrect * CountMarked(Verdicts(outcomes))
  {
    if |outcomes| > 0 {
      var n := |outcomes| - 1;
      var prefix := outcomes[..n];
      assert forall i :: 0 <= i < n ==> prefix[i] == outcomes[i];
      var vs := Verdicts(outcomes);
      assert Fold(prefix).Success? && Fold(outcomes).value.score ==
        Fold(prefix).value.score + (if outcomes[n].value.correct then PointsPerCorrect else 0);
      FoldScoreCountsVerdicts(prefix);
      assert vs[..n] == Verdicts(prefix);
      assert CountMarked(vs) == CountMarked(Verdicts(prefix)) + (if vs[n] then 1 else 0);
    }
  }

  /** The loop gets through the bank exactly when every question is well answered. */
  lemma GradeSucceedsIffWellAnswered(bank: seq<Question>, form: Form)
    ensures Grade(bank, form).Success? <==> forall i :: 0 <= i < |bank| ==> WellAnswered(bank[i], form)
  {
    var os := Outcomes(bank, form);
    assert forall i :: 0 <= i < |bank| ==> os[i] == GradeQuestion(bank[i], form);
  }

  /** On a well-answered bank, the verdicts the score counts are the verdicts
      the details string records. */
  lemma VerdictsAreDetailsMarks(bank: seq<Question>, form: Form)
    requires forall i :: 0 <= i < |bank| ==> WellAnswered(bank[i], form)
    ensures forall i :: 0 <= i < |bank| ==> Outcomes(bank, form)[i].Success?
    ensures Verdicts(Outcomes(bank, form)) == DetailsMarks(bank, form)
  {
    var os := Outcomes(bank, form);
    forall i | 0 <= i < |bank|
      ensures os[i].Success? && (os[i].value.correct <==> DetailsMarks(bank, form)[i])
    {
      ScorePathAgreesWithDetailsPath(bank[i], form);
    }
  }

  /** The score is 20 points per question whose details verdict is `D`. */
  lemma GradeScoreCountsMarks(bank: seq<Question>, form: Form)
    requires Grade(bank, form).Success?
    ensures Grade(bank, form).value.score == PointsPerCorrect * CountMarked(DetailsMarks(bank, form))
  {
    GradeSucceedsIffWellAnswered(bank, form);
    VerdictsAreDetailsMarks(bank, form);
    FoldScoreCountsVerdicts(Outcomes(bank, form));
  }

  /** The score equals 20 times the number of questions whose submitted index
      equals the answer key, and so lies between 0 and 20 per question. */
  lemma ScoreIsTwentyPerCorrectAnswer(bank: seq<Question>, form: Form)
    requires Grade(bank, form).Success?
    ensures Grade(bank, form).value.score == PointsPerCorrect * |CorrectIndices(bank, form)|
    ensures 0 <= Grade(bank, form).value.score <= PointsPerCorrect * |bank|
  {
    var marks := DetailsMarks(bank, form);
    GradeScoreCountsMarks(bank, form);
    CountMarkedIsCardinality(marks);
    assert (set i | 0 <= i < |marks| && marks[i]) == CorrectIndices(bank, form);
  }

  // ---------------------------------------------------------------------------
  // The details string: `Q1:D | Q2:Y | ...`

  /** `Q{position}:D` for a correct answer, `Q{position}:Y` otherwise. */
  function Token(position: nat, correct: bool): string {
    "Q" + NatToString(position) + ":" + (if correct then "D" else "Y")
  }

  /** The tokens for `marks`, numbered from `first`. */
  function Tokens(marks: seq<bool>, first: nat): (ts: seq<string>)
    ensures |ts| == |marks|
  {
    seq(|marks|, i requires 0 <= i < |marks| => Token(first + i, marks[i]))
  }

  /** `" | ".join(...)` of the 1-based tokens. */
  function EncodeDetails(marks: seq<bool>): string {
    Join(Tokens(marks, 1), " | ")
  }

  /** Reads a details string back into its verdicts, checking that token i
      carries position i + 1. */
  function DecodeDetails(s: string): Option<seq<bool>> {
    if s == "" then Some([]) else DecodeFrom(s, 1)
  }

  function DecodeFrom(s: string, position: nat): Option<seq<bool>>
    decreases |s|
  {
    var head := "Q" + NatToString(position) + ":";
    if |s| <= |head| || s[..|head|] != head || (s[|head|] != 'D' && s[|head|] != 'Y') then None
    else
      var mark := s[|head|] == 'D';
      var rest := s[|head| + 1..];
      if rest == "" then Some([mark])
      else if |rest| > 3 && rest[..3] == " | " then
        match DecodeFrom(rest[3..], position + 1)
        case None => None
        case Some(more) => Some([mark] + more)
      else None
  }

  /** A single token reads back as its one verdict. */
  lemma DecodeLastToken(position: nat, correct: bool)
    ensures DecodeFrom(Token(position, correct), position) == Some([correct])
  {
    var head := "Q" + NatToString(position) + ":";
    var s := Token(position, correct);
    assert s[..|head|] == head;
    assert s[|head| + 1..] == "";
  }

  /** A token followed by `" | "` and a readable rest reads back as its
      verdict followed by the rest's. */
  lemma DecodeConsToken(position: nat, correct: bool, tail: string, more: seq<bool>)
    requires |tail| > 0
    requires DecodeFrom(tail, position + 1) == Some(more)
    ensures DecodeFrom(Token(position, correct) + (" | " + tail), position) == Some([correct] + more)
  {
    var head := "Q" + NatToString(position) + ":";
    var mk := if correct then 'D' else 'Y';
    var rest := " | " + tail;
    var s := Token(position, correct) + rest;
    assert s == head + [mk] + rest;
    assert s[..|head|] == head;
    assert s[|head|] == mk;
    assert s[|head| + 1..] == rest;
    assert rest[..3] == " | " && rest[3..] == tail;
  }

  /** Peeling the first token off the joined tokens. */
  lemma JoinTokensUncons(marks: seq<bool>, position: nat)
    requires |marks| > 1
    ensures var tail := Join(Tokens(marks[1..], position + 1), " | ");
      && |tail| > 0
      && Join(Tokens(marks, position), " | ") == Token(position, marks[0]) + (" | " + tail)
  {
    var ts := Tokens(marks, position);
    assert ts[1..] == Tokens(marks[1..], position + 1);
    assert |ts[1]| > 0;
  }

  lemma {:induction false} DecodeFromTokens(marks: seq<bool>, position: nat)
    requires |marks| > 0
    ensures DecodeFrom(Join(Tokens(marks, position), " | "), position) == Some(marks)
  {
    if |marks| == 1 {
      assert Join(Tokens(marks, position), " | ") == Token(position, marks[0]);
      DecodeLastToken(position, marks[0]);
      assert [marks[0]] == marks;
    } else {
      JoinTokensUncons(marks, position);
      DecodeFromTokens(marks[1..], position + 1);
      DecodeConsToken(position, marks[0], Join(Tokens(marks[1..], position + 1), " | "), marks[1..]);
      assert [marks[0]] + marks[1..] == marks;
    }
  }

  /** The details string can be read back into exactly the verdicts it encodes. */
  lemma DecodeEncodeDetails(marks: seq<bool>)
    ensures DecodeDetails(EncodeDetails(marks)) == Some(marks)
  {
    if |marks| > 0 {
      var ts := Tokens(marks, 1);
      assert |ts[0]| > 0;
      if |marks| > 1 {
        assert EncodeDetails(marks) == ts[0] + " | " + Join(ts[1..], " | ");
      }
      DecodeFromTokens(marks, 1);
    }
  }

  /** A details string contains neither a comma nor a line break, so it
      survives the plain CSV export. */
  lemma DetailsAreCsvSafe(marks: seq<bool>)
    ensures ',' !in EncodeDetails(marks) && '\n' !in EncodeDetails(marks)
  {
    var ts := Tokens(marks, 1);
    forall i | 0 <= i < |ts|
      ensures ',' !in ts[i] && '\n' !in ts[i]
    {
      var digits := NatToString(1 + i);
      assert ts[i] == "Q" + digits + ":" + (if marks[i] then "D" else "Y");
      assert forall j :: 0 <= j < |digits| ==> IsDigit(digits[j]);
    }
    JoinAvoids(ts, " | ", ',');
    JoinAvoids(ts, " | ", '\n');
  }

  // ---------------------------------------------------------------------------
  // The whole POST

  /** The `/quiz` POST: grade, then build the details string (which re-reads
      the form), or fail with the first question that raises. */
  function Submit(bank: seq<Question>, form: Form): (r: Result<Submission, QuizError>)
    ensures r.Success? <==> forall i :: 0 <= i < |bank| ==> WellAnswered(bank[i], form)
    ensures r.Success? ==> r.value.score == PointsPerCorrect * |CorrectIndices(bank, form)|
    ensures r.Success? ==> 0 <= r.value.score <= PointsPerCorrect * |bank|
  {
    GradeSucceedsIffWellAnswered(bank, form);
    match Grade(bank, form)
    case Failure(e) => Failure(e)
    case Success(g) =>
      ScoreIsTwentyPerCorrectAnswer(bank, form);
      Success(Submission(g.score, g.review, EncodeDetails(DetailsMarks(bank, form))))
  }

  /** A malformed submission is rejected with the error of the first question,
      in bank order, whose answer is missing, not an integer, or not a valid
      index (or whose answer key is not one). */
  lemma SubmitFailsAtFirstMalformedQuestion(bank: seq<Question>, form: Form)
    requires Submit(bank, form).Failure?
    ensures exists k ::
      && 0 <= k < |bank|
      && !WellAnswered(bank[k], form)
      && GradeQuestion(bank[k], form) == Failure(Submit(bank, form).error)
      && (forall j :: 0 <= j < k ==> WellAnswered(bank[j], form))
  {
    var os := Outcomes(bank, form);
    FoldFailsAtFirstError(os);
    var k :| 0 <= k < |os| && os[k] == Failure(Fold(os).error)
      && (forall j :: 0 <= j < k ==> os[j].Success?);
    assert os[k] == GradeQuestion(bank[k], form);
    assert forall j :: 0 <= j < k ==> os[j] == GradeQuestion(bank[j], form);
  }

  /** The review has one entry per question, in bank order: the question's
      stem and explanation, the choice at the submitted index and the choice at
      the answer key, whether or not the answer was correct. */
  lemma SubmitReviewFollowsBank(bank: seq<Question>, form: Form)
    requires Submit(bank, form).Success?
    ensures var review := Submit(bank, form).value.review;
      && |review| == |bank|
      && forall i :: 0 <= i < |bank| ==>
        && WellAnswered(bank[i], form)
        && review[i] == ExpectedEntry(bank[i], form)
        && var chosen := ParseInt(form[FieldName(bank[i])]).value;
           (0 <= chosen < |bank[i].choices| ==> review[i].your == bank[i].choices[chosen])
           && (0 <= bank[i].answerIndex < |bank[i].choices| ==>
                 review[i].correct == bank[i].choices[bank[i].answerIndex])
  {
    var os := Outcomes(bank, form);
    assert forall i :: 0 <= i < |bank| ==> os[i] == GradeQuestion(bank[i], form);
  }

  /** Details carry one verdict per question in bank order, `D` exactly for the
      questions the score counted, and 20 times the number of `D` verdicts is
      the score. */
  lemma DetailsAgreeWithScore(bank: seq<Question>, form: Form)
    requires Submit(bank, form).Success?
    ensures var sub := Submit(bank, form).value;
      var decoded := DecodeDetails(sub.details);
      && decoded.Some?
      && |decoded.value| == |bank|
      && (forall i :: 0 <= i < |bank| ==>
            && GradeQuestion(bank[i], form).Success?
            && (decoded.value[i] <==> GradeQuestion(bank[i], form).value.correct))
      && sub.score == PointsPerCorrect * CountMarked(decoded.value)
  {
    var marks := DetailsMarks(bank, form);
    DecodeEncodeDetails(marks);
    GradeScoreCountsMarks(bank, form);
    forall i | 0 <= i < |bank|
      ensures GradeQuestion(bank[i], form).Success?
      ensures marks[i] <==> GradeQuestion(bank[i], form).value.correct
    {
      ScorePathAgreesWithDetailsPath(bank[i], form);
    }
  }

  /** Answering every question of a five-question bank correctly scores 100;
      answering every one wrongly scores 0. */
  lemma FiveQuestionExtremes(bank: seq<Question>, form: Form)
    requires |bank| == 5
    requires forall i :: 0 <= i < |bank| ==> WellAnswered(bank[i], form)
    ensures (forall i :: 0 <= i < |bank| ==> AnsweredCorrectly(bank[i], form)) ==> Submit(bank, form).value.score == 100
    ensures (forall i :: 0 <= i < |bank| ==> !AnsweredCorrectly(bank[i], form)) ==> Submit(bank, form).value.score == 0
  {
    var marks := DetailsMarks(bank, form);
    GradeScoreCountsMarks(bank, form);
  }

  /** A submitted `-1` is a valid Python index: the review shows the last
      choice as the user's answer even when it is the correct one, but the
      question scores nothing and is recorded as `Y`. */
  lemma NegativeChoiceWrapsButScoresZero()
    ensures var bank := [Question(1, "stem", ["a", "b"], 1, "why")];
      var r := Submit(bank, map["q1" := "-1"]);
      && r.Success?
      && r.value.score == 0
      && r.value.review[0].your == r.value.review[0].correct == "b"
      && r.value.details == "Q1:Y"
  {
    var q := Question(1, "stem", ["a", "b"], 1, "why");
    var form := map["q1" := "-1"];
    assert NatToString(1) == "1" by {
      assert DigitChar(1) == '1';
    }
    assert FieldName(q) == "q1";
    assert ParseInt("-1") == Some(-1) by {
      ParseIntOfIntToString(-1);
      assert IntToString(-1) == "-1";
    }
    assert Token(1, false) == "Q1:Y";
    assert Tokens([false], 1) == ["Q1:Y"];
    assert !AnsweredCorrectly(q, form);
    assert DetailsMarks([q], form) == [false];
  }

  /** An answer padded with an information separator is not an integer to
      `int()`, so the submission is rejected. */
  lemma SeparatorPaddedAnswerIsRejected()
    ensures Submit([Question(1, "stem", ["a", "b"], 1, "why")], map["q1" := "\U{1C}1"])
      == Failure(NotAnInteger(1))
  {
    var q := Question(1, "stem", ["a", "b"], 1, "why");
    assert NatToString(1) == "1" by {
      assert DigitChar(1) == '1';
    }
    assert FieldName(q) == "q1";
    assert ParseInt("\U{1C}1") == None by {
      assert StripAll("\U{1C}1", IntSpaceChars) == "\U{1C}1";
      assert !IsDigit('\U{1C}');
    }
    assert Outcomes([q], map["q1" := "\U{1C}1"]) == [Failure(NotAnInteger(1))];
  }
}

=== FILE: reports.dfy ===
/** The administrator's CSV export (`/admin/export.csv`): a header line, then
    one unescaped comma-joined line per result row, in the order the query
    delivers the rows (newest result first). */
module Reports {
  import opened Wrappers
  import opened Text
  import Accounts
  import Quiz

  /** One row of `SELECT r.taken_at, u.username, r.score, r.details ...`. */
  datatype ResultRow = ResultRow(takenAt: string, username: string, score: int, details: string)

  const CsvHeader: string := "taken_at,username,score,details"

  /** The four cells of a row as text, in column order. */
  function Cells(r: ResultRow): seq<string> {
    [r.takenAt, r.username, IntToString(r.score), r.details]
  }

  /** `f"{taken_at},{username},{score},{details}"`. */
  function CsvLine(r: ResultRow): string {
    r.takenAt + "," + r.username + "," + IntToString(r.score) + "," + r.details
  }

  function Lines(rows: seq<ResultRow>): (lines: seq<string>)
    ensures |lines| == |rows|
    ensures forall i :: 0 <= i < |rows| ==> lines[i] == CsvLine(rows[i])
  {
    seq(|rows|, i requires 0 <= i < |rows| => CsvLine(rows[i]))
  }

  /** The export as a document: header and lines, each ended by a newline. */
  function Document(rows: seq<ResultRow>): string {
    Join([CsvHeader] + Lines(rows), "\n") + "\n"
  }

  /** A cell that neither splits a line nor shifts a column. */
  predicate CsvSafe(cell: string) {
    ',' !in cell && '\n' !in cell
  }

  /** A row whose text cells hold no line break (commas are allowed). */
  predicate RowOneLine(r: ResultRow) {
    '\n' !in r.takenAt && '\n' !in r.username && '\n' !in r.details
  }

  predicate RowSafe(r: ResultRow) {
    CsvSafe(r.takenAt) && CsvSafe(r.username) && CsvSafe(r.details)
  }

  /** `admin_export_csv`: refused for a non-admin; otherwise the header
      followed by `out += line + "\n"` for every row in the given order. */
  method ExportCsv(who: Accounts.Identity, rows: seq<ResultRow>) returns (r: Result<string, Accounts.AdminError>)
    ensures r.Failure? <==> !who.isAdmin
    ensures r.Success? ==> r.value == Document(rows)
  {
    if !Accounts.RequireAdmin(who) {
      return Failure(Accounts.Forbidden);
    }
    var out := CsvHeader + "\n";
    var i := 0;
    while i < |rows|
      invariant 0 <= i <= |rows|
      invariant out == Join([CsvHeader] + Lines(rows[..i]), "\n") + "\n"
    {
      assert [CsvHeader] + Lines(rows[..i + 1]) == ([CsvHeader] + Lines(rows[..i])) + [CsvLine(rows[i])];
      JoinSnoc([CsvHeader] + Lines(rows[..i]), CsvLine(rows[i]), "\n");
      out := out + CsvLine(rows[i]) + "\n";
      i := i + 1;
    }
    assert rows[..i] == rows;
    return Success(out);
  }

  /** The printed score never holds a comma or a line break. */
  lemma IntToStringIsCsvSafe(i: int)
    ensures CsvSafe(IntToString(i))
  {
    var s := IntToString(i);
    var d := NatToString(if i < 0 then -i else i);
    assert forall k :: 0 <= k < |d| ==> IsDigit(d[k]);
    if i < 0 {
      assert s == "-" + d;
    }
  }

  /** The f-string is the four cells joined by commas. */
  lemma CsvLineIsJoin(r: ResultRow)
    ensures Join(Cells(r), [',']) == CsvLine(r)
  {
    var cells := Cells(r);
    assert Join(cells[3..], [',']) == r.details;
    assert Join(cells[2..], [',']) == IntToString(r.score) + "," + r.details;
    assert Join(cells[1..], [',']) == r.username + "," + IntToString(r.score) + "," + r.details;
  }

  /** A line splits on `,` back into its four cells when none of them holds a comma. */
  lemma CsvLineReadsBack(r: ResultRow)
    requires RowSafe(r)
    ensures Split(CsvLine(r), ',') == Cells(r)
    ensures ParseInt(Split(CsvLine(r), ',')[2]) == Some(r.score)
  {
    IntToStringIsCsvSafe(r.score);
    CsvLineIsJoin(r);
    SplitJoin(Cells(r), ',');
    ParseIntOfIntToString(r.score);
  }

  /** A line whose cells hold no line break is one line, commas or not. */
  lemma CsvLineIsOneLine(r: ResultRow)
    requires RowOneLine(r)
    ensures '\n' !in CsvLine(r)
  {
    IntToStringIsCsvSafe(r.score);
    CsvLineIsJoin(r);
    JoinAvoids(Cells(r), [','], '\n');
  }

  /** The document splits on newlines into the header, exactly one line per
      row in the given order, and the empty rest after the last newline. */
  lemma DocumentLines(rows: seq<ResultRow>)
    requires forall i :: 0 <= i < |rows| ==> RowOneLine(rows[i])
    ensures Split(Document(rows), '\n') == [CsvHeader] + Lines(rows) + [""]
  {
    var parts := [CsvHeader] + Lines(rows);
    JoinSnoc(parts, "", "\n");
    var all := parts + [""];
    forall i | 0 <= i < |all|
      ensures '\n' !in all[i]
    {
      if 1 <= i <= |rows| {
        CsvLineIsOneLine(rows[i - 1]);
      }
    }
    SplitJoin(all, '\n');
    assert Document(rows) == Join(all, "\n") by {
      assert Join(parts, "\n") + "\n" == Join(parts, "\n") + "\n" + "";
    }
  }

  /** A row the quiz wrote (its details are the encoded marks) exports with
      the details intact in the fourth column. */
  lemma QuizRowReadsBack(takenAt: string, username: string, score: int, marks: seq<bool>)
    requires CsvSafe(takenAt) && CsvSafe(username)
    ensures var cells := Split(CsvLine(ResultRow(takenAt, username, score, Quiz.EncodeDetails(marks))), ',');
      && |cells| == 4
      && ParseInt(cells[2]) == Some(score)
      && Quiz.DecodeDetails(cells[3]) == Some(marks)
  {
    Quiz.DetailsAreCsvSafe(marks);
    CsvLineReadsBack(ResultRow(takenAt, username, score, Quiz.EncodeDetails(marks)));
    Quiz.DecodeEncodeDetails(marks);
  }

  /** Cells are not escaped: a comma inside a username shifts the columns. */
  lemma CommaInUsernameShiftsColumns()
    ensures |Split(CsvLine(ResultRow("t", "a,b", 0, "")), ',')| == 5
  {
    var cells := ["t", "a", "b", "0", ""];
    assert CsvLine(ResultRow("t", "a,b", 0, "")) == Join(cells, [',']) by {
      assert IntToString(0) == "0" by {
        assert DigitChar(0) == '0';
      }
      assert Join(cells[3..], [',']) == "0,";
      assert Join(cells[2..], [',']) == "b,0,";
      assert Join(cells[1..], [',']) == "a,b,0,";
    }
    SplitJoin(cells, ',');
  }
}

=== FILE: text.dfy ===
/** The few Python string and integer built-ins the application relies on:
    `str.isspace`/`str.strip`, `int(str)`, `str(int)`, `sep.join(parts)`, and
    a single-character split used to read joined text back. */
module Text {
  import opened Wrappers

  /** The code points for which Python's `str.isspace()` holds. */
  const SpaceChars: set<char> := {
    '\U{9}', '\U{A}', '\U{B}', '\U{C}', '\U{D}', '\U{1C}', '\U{1D}', '\U{1E}',
    '\U{1F}', '\U{20}', '\U{85}', '\U{A0}', '\U{1680}', '\U{2000}', '\U{2001}', '\U{2002}',
    '\U{2003}', '\U{2004}', '\U{2005}', '\U{2006}', '\U{2007}', '\U{2008}', '\U{2009}', '\U{200A}',
    '\U{2028}', '\U{2029}', '\U{202F}', '\U{205F}', '\U{3000}'
  }

  /** The whitespace `int(str)` skips around a number. Characters from
      U+0080 up that `str.isspace()` accepts are first mapped to an ASCII
      space, but characters below U+0080 are kept as they are, and the parser
      then skips only tab, line feed, vertical tab, form feed, carriage return
      and space. So the four information separators U+001C..U+001F, which
      `str.strip()` removes, make `int()` fail. */
  const IntSpaceChars: set<char> := {
    '\U{9}', '\U{A}', '\U{B}', '\U{C}', '\U{D}',
    '\U{20}', '\U{85}', '\U{A0}', '\U{1680}', '\U{2000}', '\U{2001}', '\U{2002}',
    '\U{2003}', '\U{2004}', '\U{2005}', '\U{2006}', '\U{2007}', '\U{2008}', '\U{2009}', '\U{200A}',
    '\U{2028}', '\U{2029}', '\U{202F}', '\U{205F}', '\U{3000}'
  }

  predicate AllIn(s: string, ws: set<char>) {
    forall i :: 0 <= i < |s| ==> s[i] in ws
  }

  /** Drops the longest prefix of characters from `ws`. */
  function StripLeft(s: string, ws: set<char>): string {
    if |s| > 0 && s[0] in ws then StripLeft(s[1..], ws) else s
  }

  /** Drops the longest suffix of characters from `ws`. */
  function StripRight(s: string, ws: set<char>): string {
    if |s| > 0 && s[|s| - 1] in ws then StripRight(s[..|s| - 1], ws) else s
  }

  function StripAll(s: string, ws: set<char>): string {
    StripRight(StripLeft(s, ws), ws)
  }

  /** `s.strip()`. */
  function Strip(s: string): string {
    StripAll(s, SpaceChars)
  }

  predicate IsDigit(c: char) {
    '0' as int <= c as int <= '9' as int
  }

  predicate AllDigits(s: string) {
    forall i :: 0 <= i < |s| ==> IsDigit(s[i])
  }

  function DigitChar(d: nat): (c: char)
    requires d < 10
  {
    ('0' as int + d) as char
  }

  function DigitValue(c: char): nat
    requires IsDigit(c)
  {
    c as int - '0' as int
  }

  /** `str(n)` for a natural number: decimal, no leading zeros. */
  function NatToString(n: nat): (s: string)
    ensures |s| > 0 && AllDigits(s)
    ensures |s| > 1 ==> s[0] != '0'
  {
    if n < 10 then [DigitChar(n)] else NatToString(n / 10) + [DigitChar(n % 10)]
  }

  /** `str(i)` for any integer. */
  function IntToString(i: int): string {
    if i < 0 then "-" + NatToString(-i) else NatToString(i)
  }

  /** The value of a run of decimal digits (leading zeros allowed, as `int()` allows them). */
  function DigitsValue(s: string): nat
    requires AllDigits(s)
  {
    if |s| == 0 then 0 else DigitsValue(s[..|s| - 1]) * 10 + DigitValue(s[|s| - 1])
  }

  /** Python's `int(s)` on a string: surrounding `IntSpaceChars` are ignored, an
      optional sign is followed by at least one decimal digit, anything else
      raises (here: `None`). */
  function ParseInt(s: string): Option<int> {
    ParseSigned(StripAll(s, IntSpaceChars))
  }

  /** `int()` on text that has already been stripped. */
  function ParseSigned(t: string): (r: Option<int>)
    ensures r.Some? <==>
      || (|t| > 0 && AllDigits(t))
      || (|t| > 1 && (t[0] == '-' || t[0] == '+') && AllDigits(t[1..]))
  {
    if |t| > 1 && (t[0] == '-' || t[0] == '+') && AllDigits(t[1..]) then
      var magnitude: int := DigitsValue(t[1..]);
      Some(if t[0] == '-' then -magnitude else magnitude)
    else if |t| > 0 && AllDigits(t) then
      Some(DigitsValue(t))
    else
      None
  }

  /** `sep.join(parts)`. */
  function Join(parts: seq<string>, sep: string): string {
    if |parts| == 0 then ""
    else if |parts| == 1 then parts[0]
    else parts[0] + sep + Join(parts[1..], sep)
  }

  function IndexOf(s: string, c: char): (k: nat)
    requires c in s
    ensures k < |s| && s[k] == c && c !in s[..k]
  {
    if s[0] == c then 0 else 1 + IndexOf(s[1..], c)
  }

  /** `s.split(c)` for a one-character separator. */
  function Split(s: string, c: char): (parts: seq<string>)
    ensures |parts| > 0
    decreases |s|
  {
    if c in s then
      var k := IndexOf(s, c);
      [s[..k]] + Split(s[k + 1..], c)
    else
      [s]
  }

  /** `DigitsValue` reads back what `NatToString` writes. */
  lemma {:induction false} DigitsValueOfNatToString(n: nat)
    ensures DigitsValue(NatToString(n)) == n
  {
    var s := NatToString(n);
    if n >= 10 {
      DigitsValueOfNatToString(n / 10);
      assert s[..|s| - 1] == NatToString(n / 10);
    } else {
      assert s[..|s| - 1] == [];
    }
  }

  /** No decimal digit is whitespace of either kind. */
  lemma DigitIsNotSpace(c: char)
    requires IsDigit(c)
    ensures c !in SpaceChars && c !in IntSpaceChars
  {
  }

  /** `str(i)` neither starts nor ends with whitespace `int()` skips. */
  lemma IntToStringUnpadded(i: int)
    ensures var s := IntToString(i); |s| > 0 && s[0] !in IntSpaceChars && s[|s| - 1] !in IntSpaceChars
  {
    var s := IntToString(i);
    var d := NatToString(if i < 0 then -i else i);
    DigitIsNotSpace(d[|d| - 1]);
    if i < 0 {
      assert s[|s| - 1] == d[|d| - 1];
    } else {
      DigitIsNotSpace(d[0]);
    }
  }

  /** `int(str(i)) == i`. */
  lemma ParseIntOfIntToString(i: int)
    ensures ParseInt(IntToString(i)) == Some(i)
  {
    var s := IntToString(i);
    assert StripAll(s, IntSpaceChars) == s by {
      IntToStringUnpadded(i);
      StripOfUnpadded(s, IntSpaceChars);
    }
    ParseSignedOfIntToString(i);
  }

  lemma ParseSignedOfIntToString(i: int)
    ensures ParseSigned(IntToString(i)) == Some(i)
  {
    var s := IntToString(i);
    if i < 0 {
      assert s[1..] == NatToString(-i);
      DigitsValueOfNatToString(-i);
    } else {
      DigitsValueOfNatToString(i);
    }
  }

  /** A leading zero does not change a run of digits' value. */
  lemma {:induction false} DigitsValueLeadingZero(d: string)
    requires AllDigits(d)
    ensures DigitsValue("0" + d) == DigitsValue(d)
  {
    if |d| > 0 {
      var z := "0" + d;
      assert z[..|z| - 1] == "0" + d[..|d| - 1];
      assert z[|z| - 1] == d[|d| - 1];
      DigitsValueLeadingZero(d[..|d| - 1]);
    }
  }

  /** `int()` accepts leading zeros and ignores them: `int("01") == int("1")`. */
  lemma ParseSignedLeadingZero(d: string)
    requires |d| > 0 && AllDigits(d)
    ensures ParseSigned("0" + d) == ParseSigned(d)
  {
    DigitsValueLeadingZero(d);
    assert ("0" + d)[1..] == d;
  }

  /** A `+` sign is accepted and changes nothing: `int("+1") == int("1")`. */
  lemma ParseSignedPlus(d: string)
    requires |d| > 0 && AllDigits(d)
    ensures ParseSigned("+" + d) == ParseSigned(d)
  {
    assert ("+" + d)[1..] == d;
  }

  /** A `-` sign negates the digits' value, so `int("-0") == 0`. */
  lemma ParseSignedMinus(d: string)
    requires |d| > 0 && AllDigits(d)
    ensures ParseSigned(d).Some?
    ensures ParseSigned("-" + d) == Some(-ParseSigned(d).value)
  {
    assert ("-" + d)[1..] == d;
  }

  /** Whitespace `int()` skips around the number does not change what it reads. */
  lemma ParseIntIgnoresSurroundingSpace(left: string, i: int, right: string)
    requires AllIn(left, IntSpaceChars) && AllIn(right, IntSpaceChars)
    ensures ParseInt(left + IntToString(i) + right) == Some(i)
  {
    var s := IntToString(i);
    assert StripAll(left + s + right, IntSpaceChars) == s by {
      IntToStringUnpadded(i);
      StripOfPadded(left, s, right, IntSpaceChars);
    }
    ParseSignedOfIntToString(i);
  }

  /** `str.strip()` removes an information separator, but `int()` refuses
      it: `"\x1c5".strip() == "5"` while `int("\x1c5")` raises. */
  lemma IntRefusesInformationSeparator()
    ensures Strip("\U{1C}5") == "5"
    ensures ParseInt("\U{1C}5") == None
  {
    assert StripLeft("\U{1C}5", SpaceChars) == StripLeft("5", SpaceChars);
    assert StripAll("\U{1C}5", IntSpaceChars) == "\U{1C}5";
    assert !IsDigit('\U{1C}');
  }

  /** A string that neither starts nor ends with a character of `ws` is its
      own strip. */
  lemma StripOfUnpadded(s: string, ws: set<char>)
    requires s == [] || (s[0] !in ws && s[|s| - 1] !in ws)
    ensures StripAll(s, ws) == s
  {
  }

  lemma StripOfPadded(left: string, s: string, right: string, ws: set<char>)
    requires AllIn(left, ws) && AllIn(right, ws)
    requires |s| > 0 && s[0] !in ws && s[|s| - 1] !in ws
    ensures StripAll(left + s + right, ws) == s
  {
    assert left + s + right == left + (s + right);
    StripLeftOfPadded(left, s + right, ws);
    StripRightOfPadded(s, right, ws);
  }

  lemma {:induction false} StripLeftOfPadded(left: string, s: string, ws: set<char>)
    requires AllIn(left, ws)
    requires |s| > 0 && s[0] !in ws
    ensures StripLeft(left + s, ws) == s
  {
    if |left| > 0 {
      assert (left + s)[1..] == left[1..] + s;
      StripLeftOfPadded(left[1..], s, ws);
    } else {
      assert left + s == s;
    }
  }

  lemma {:induction false} StripRightOfPadded(s: string, right: string, ws: set<char>)
    requires AllIn(right, ws)
    requires |s| > 0 && s[|s| - 1] !in ws
    ensures StripRight(s + right, ws) == s
  {
    if |right| > 0 {
      assert (s + right)[..|s + right| - 1] == s + right[..|right| - 1];
      StripRightOfPadded(s, right[..|right| - 1], ws);
    } else {
      assert s + right == s;
    }
  }

  /** Splitting a joined text on its separator gives the parts back, as long
      as no part contains the separator. */
  lemma {:induction false} SplitJoin(parts: seq<string>, c: char)
    requires |parts| > 0
    requires forall i :: 0 <= i < |parts| ==> c !in parts[i]
    ensures Split(Join(parts, [c]), c) == parts
  {
    if |parts| > 1 {
      var s := Join(parts, [c]);
      var p := parts[0];
      var rest := Join(parts[1..], [c]);
      assert s == p + [c] + rest;
      IndexOfAfter(p, c, rest);
      assert s[..|p|] == p;
      assert s[|p| + 1..] == rest;
      SplitJoin(parts[1..], c);
    }
  }

  /** The first occurrence of `c` is right after a prefix that lacks it. */
  lemma {:induction false} IndexOfAfter(p: string, c: char, rest: string)
    requires c !in p
    ensures c in p + [c] + rest && IndexOf(p + [c] + rest, c) == |p|
  {
    var s := p + [c] + rest;
    assert s[|p|] == c;
    if |p| > 0 {
      assert s[0] == p[0];
      assert s[1..] == p[1..] + [c] + rest;
      IndexOfAfter(p[1..], c, rest);
    }
  }

  /** A character absent from every part and from the separator is absent
      from the joined text. */
  lemma {:induction false} JoinAvoids(parts: seq<string>, sep: string, c: char)
    requires c !in sep
    requires forall i :: 0 <= i < |parts| ==> c !in parts[i]
    ensures c !in Join(parts, sep)
  {
    if |parts| > 1 {
      JoinAvoids(parts[1..], sep, c);
    }
  }

  /** Appending a last part adds one separator and the part at the end. */
  lemma {:induction false} JoinSnoc(parts: seq<string>, last: string, sep: string)
    requires |parts| > 0
    ensures Join(parts + [last], sep) == Join(parts, sep) + sep + last
  {
    if |parts| > 1 {
      assert (parts + [last])[1..] == parts[1..] + [last];
      JoinSnoc(parts[1..], last, sep);
    } else {
      assert (parts + [last])[1..] == [last];
    }
  }
}

=== FILE: wrappers.dfy ===
/** Failure-carrying datatypes shared by the whole model. A Python route that
    raises, or that redirects with a notice instead of doing its work, is
    modelled as a `Failure` (or a `None`) rather than as a precondition. */
module Wrappers {

  datatype Option<+T> = None | Some(value: T) {

    /** The value, or `default` when there is none (Python's `dict.get(key, default)`). */
    function GetOr(default: T): T {
      match this
      case Some(v) => v
      case None => default
    }
  }

  datatype Result<+R, +E> = Success(value: R) | Failure(error: E)
}
